=== FILE: README.md ===
# Chord ring core in Dafny

A model of the ring arithmetic, routing and maintenance logic of a small
Chord-style distributed hash table (`objects.py`). Peers sit on a ring of
identifiers `[0, 4096)`. Each knows a successor, possibly a predecessor, and a
finger table of routing shortcuts. Lookups hop along fingers. A periodic
tick, `cohere` (`stabilize` followed by `fix_fingers`), repairs pointers.
Keys are stored at the node that one routing hop selects.

## Structure

- `wrappers.dfy` — `Option` and `Result`.
- `keyspace.dfy` — `KEYSPACE_MAX`, the `Keyspace` membership test `Contains`,
  and two reference definitions of the circular interval: `InArc`, based on
  clockwise distance, and `OnWalk`, a brute-force clockwise walk.
- `nodes.dfy` — the `Node` record and the validity invariant of the node table.
  It also holds node construction (`AddNode`).
- `routing.dfy` — `closest_preceding_node`, `find_successor` and their properties.
- `maintenance.dfy` — `join`, `notify`, `stabilize`, `fix_fingers`, `cohere`.
- `storage.dfy` — `find_key_node`, `get`, `put`.
- `scenarios.dfy` — small rings worked through end to end.

## How the program is represented

- The set of live nodes is an immutable table `seq<Node>`.
- `successor`, `predecessor` and finger entries are indices into that table.
  The program compares objects by identity (`node == self`); here that becomes
  index equality.
- Every operation takes a table and returns the updated table. A "remote"
  call on another node is a read or update of that node's entry.
- Python's `hash` is a parameter `hash: string -> int`, so it is
  uninterpreted. An id is `hash(address) % 4096`. Python's `%` with a positive
  modulus is never negative, and neither is Dafny's `%`.
- `find_successor` recurses with no bound in the program. `FindSuccessor`
  therefore takes `fuel`, the number of delegations it may make, and returns
  `None` when the fuel runs out. `Join`, `FixFingers` and `Cohere` turn that
  into `Failure(HopLimitExceeded)`.
- `Contains` keeps the program's `assert 0 <= item < KEYSPACE_MAX` as its
  precondition. Its bounds are unconstrained, as in the program.

## Behaviour kept as written

The model follows the code in three places where it differs from textbook
Chord.

- **Wrapped `Keyspace`.** The wrapped branch tests `item <= end - KEYSPACE_MAX`.
  That bound is negative for every in-range `end`, so the test never holds.
  Wrapped membership therefore collapses to `item > start`
  (`WrappedContainsCollapses`). Textbook Chord counts 50 as inside the wrapped
  range `(4000, 100]`. This code does not (`WrappedRangeExample`). Every
  member the code accepts still lies on the clockwise arc (`ContainsOnArc`).
- **`stabilize` with no predecessor at the successor.** Textbook Chord
  notifies the successor. This code runs `self.notify(self)`, so the node
  offers itself as its own predecessor (`Stabilize`, `StabilizeNotifies`).
- **`stabilize` otherwise.** Textbook Chord notifies the possibly updated
  successor. This code notifies `x`, the successor's old predecessor, whether
  or not `x` was adopted.

`fix_fingers` stores each finger before it computes the next one. A lookup
from the node reads its own finger table, so finger `i` is computed on the
table where fingers `0 .. i-1` already hold their new values. `FingerFixed`
states exactly that.

## Model

| member | source | states |
|---|---|---|
| Keyspace.Contains | objects.py:16-25 | the in-range assert on `item` is the precondition; with distinct bounds `start` itself is never a member; with ascending bounds `end` always is |
| Keyspace.ContainsIsArcUnlessWrapped | objects.py:16-21 | with equal or ascending in-range bounds, membership is exactly the clockwise arc; equal bounds hold every id |
| Keyspace.WrappedContainsCollapses | objects.py:22-25 | with wrapped bounds, membership is exactly `item > start`; ids at or below `end` lie on the arc but are not members |
| Keyspace.ContainsOnArc | objects.py:16-25 | every id the membership test accepts lies on the clockwise arc from `start` to `end` |
| Keyspace.WrappedRangeExample | objects.py:22-25 | on `(4000, 100]` the test keeps 4050 and drops 2000, and it also drops 50, which lies on the arc |
| Keyspace.ArcIsClockwiseWalk | objects.py:8-9 | the arc reference agrees with a brute-force clockwise walk from `start` to `end`, both directions |
| Nodes.NodeId | objects.py:31 | a node id is `hash(address)` reduced into `[0, 4096)` |
| Nodes.AddNode | objects.py:29-36 | a new node is its own successor, has no predecessor, has `k` fingers all naming itself and an empty store; the table stays valid and the other nodes are untouched |
| Routing.ScanFingers | objects.py:60-66 | the backwards scan over fingers below `i` returns an index below `i`, or none |
| Routing.ScanFindsHighest | objects.py:60-66 | the scan returns the highest qualifying finger index below `i`, and none exactly when no finger below `i` qualifies |
| Routing.ClosestPrecedingNode | objects.py:54-66 | for any integer target, even negative or huge, the result is a valid node index |
| Routing.ClosestPrecedingNodeIsHighestQualifying | objects.py:54-66 | the result is the highest-index finger in `Keyspace(self.id, id % 4096)` when one qualifies, and the node itself when none does |
| Routing.FindSuccessor | objects.py:45-52 | with a hop budget, any answer is a valid node index |
| Routing.NextHop | objects.py:46-51 | one lookup step: the successor replies when `Keyspace(self.id, successor.id)` holds `id`; otherwise the node replies itself exactly when `closest_preceding_node` returns the node, and else delegates to that node |
| Routing.FindSuccessorFollowsRoute | objects.py:45-52 | the lookup answers `r` exactly when some delegation chain of at most `fuel` hand-offs from the node ends in the reply `r` |
| Routing.RouteOfAnswer | objects.py:49-52 | every answer comes with the delegation chain that produced it: the visited nodes, each handing off to the next, the last one replying |
| Routing.AnswerOfRoute | objects.py:49-52 | following a delegation chain that fits the budget yields its reply |
| Routing.FindSuccessorFuelMonotone | objects.py:50-52 | more hop budget never changes an answer already reached |
| Routing.ScanFingersReadsRouting | objects.py:60-66 | the finger scan reads only ids and finger tables |
| Routing.ClosestPrecedingNodeReadsRouting | objects.py:54-66 | tables with the same ids, successors and fingers give the same closest preceding node |
| Routing.NextHopReadsRouting | objects.py:45-51 | one lookup step gives the same outcome on tables with the same ids, successors and fingers |
| Routing.FindSuccessorReadsRouting | objects.py:45-52 | tables with the same ids, successors and fingers give the same lookup answer; predecessors and stores play no part |
| Routing.SelfLoopAnswersAlone | objects.py:46-47 | a node that is its own successor answers every lookup itself |
| Maintenance.Join | objects.py:42-43 | join succeeds exactly when the lookup of the node's id through `via` answers; then only the node's successor changes, to that answer |
| Maintenance.Notify | objects.py:78-80 | the predecessor becomes `parent` exactly when it was unset or `parent` lies in `Keyspace(predecessor.id, self.id)`; no other field of any node changes |
| Maintenance.NotifyNarrowsPredecessor | objects.py:78-80 | a replaced predecessor is replaced by a node on the arc from the old predecessor to the node |
| Maintenance.NotifyIdempotent | objects.py:78-80 | a second identical notify changes nothing |
| Maintenance.NotifyKeepsLookups | objects.py:78-80 | notify changes no lookup answer anywhere in the table |
| Maintenance.AdoptSuccessor | objects.py:73-75 | the successor becomes the successor's predecessor `x` exactly when `x` lies in `Keyspace(self.id, successor.id)`; nothing else changes |
| Maintenance.Stabilize | objects.py:68-76 | the successor becomes `x = successor.predecessor` exactly when `x` lies in `Keyspace(self.id, successor.id)`; the notified node, itself when `x` is unset and `x` otherwise, takes the node as predecessor by the notify rule; nothing else changes |
| Maintenance.StabilizeNarrowsSuccessor | objects.py:73-75 | a replaced successor is replaced by the old successor's predecessor, which lies on the arc up to the old successor |
| Maintenance.FingerTarget | objects.py:89 | finger `i`'s target is in `[0, 4096)` and lies `2^i mod 4096` clockwise from the node |
| Maintenance.FixFingersFrom | objects.py:88-90 | recomputing fingers `i ..` in order keeps fingers below `i`; each later finger is the lookup of its target on the table as updated so far; only this node's fingers change; it fails exactly when, for some `j >= i`, the lookup of finger `j`'s target runs out of hops on the table as updated so far, that is with fingers `i .. j-1` recomputed and the rest as given |
| Maintenance.FixFingers | objects.py:85-90 | every finger is the lookup of its target, computed in order; successor, predecessor, store, table size and every other node are untouched; it fails exactly when some finger's lookup runs out of hops on the table as updated so far |
| Maintenance.LookupExhaustedStep | objects.py:88-90 | when finger `i`'s lookup answers `f`, a lookup that runs out while fixing fingers `i+1 ..` after `f` is stored runs out while fixing fingers `i ..` of the table before the store, on the same table as updated so far |
| Maintenance.LookupExhaustedBack | objects.py:88-90 | the converse step: when finger `i`'s lookup answers `f`, a lookup that runs out while fixing fingers `i ..` runs out while fixing fingers `i+1 ..` after `f` is stored |
| Maintenance.ExhaustedAt | objects.py:89-90 | a lookup of finger `i`'s target that runs out of hops on the table itself witnesses a failure while fixing fingers `i ..` |
| Maintenance.FixStep | objects.py:88-90 | storing finger `i` and then fixing fingers `i+1 ..` fixes fingers `i ..` of the table before the store |
| Maintenance.FixFrame | objects.py:88-90 | storing finger `i` and then fixing fingers `i+1 ..` changes only fingers `i ..` of the node |
| Maintenance.SelfLoopFixFingersFrom | objects.py:85-90 | on a node that is its own successor, fixing fingers succeeds and points every finger at the node itself |
| Maintenance.Cohere | objects.py:38-40 | a tick leaves pointers as `stabilize` left them and recomputes every finger of the node on that table; it fails exactly when some finger's lookup runs out of hops on the stabilized table as updated so far |
| Storage.FindKeyNode | objects.py:92-93 | the key's node is the caller itself or one of the caller's fingers, one hop only |
| Storage.Get | objects.py:95-97 | get succeeds exactly when the resolved node's store holds the key and returns its value; otherwise it fails with `MissingKey` |
| Storage.Put | objects.py:99-101 | put writes the value into the resolved node's store at the key; nothing else changes and routing is preserved |
| Storage.PutKeepsKeyNodes | objects.py:92-101 | after a put every node resolves every key to the same node as before |
| Storage.PutThenGet | testchord.py:34-37 | get of a key right after putting `v` under it, from the same node, returns `v` |
| Storage.PutLeavesOtherKeys | testchord.py:31-37 | a put leaves get of every other key, from every node, unchanged |
| Storage.PutKeepsLookups | objects.py:99-101 | a put changes no lookup answer |
| Scenarios.TwoNodeBootstrap | objects.py:68-80 | for any two nodes: the first stabilizes alone, the second joins through it, then the second and the first stabilize; afterwards each is the other's successor and predecessor |
| Scenarios.LoneNodeCohere | testchord.py:11-12 | a fresh node's first tick succeeds; the node becomes its own predecessor, stays its own successor, and every finger names it |

## Left out

- `print_ring` (objects.py:103-116): console output. It also runs `cohere` on each node as a side effect of the walk.
- `check_predecessor` (objects.py:82-83): it always returns `True` and contains no logic.
- `__getitem__`, `__setitem__` and `__str__`: syntactic sugar for `get`, `put` and the address.
- The concrete `hash` of Python strings: it is salted per process. It is an uninterpreted parameter here. Python's hash of a small int is the int itself (except `-1`), which the parameter can express but does not force.
- Ring convergence after repeated ticks: the program makes no such promise. Its driver (testchord.py:19-26) only checks it empirically after a fixed number of ticks. Only the two-node bootstrap is proved.
- Unbounded recursion in `find_successor`: `FindSuccessor` counts delegations against `fuel`. A lookup that needs more delegations fails instead of recursing further. Only a lookup that never ends in the program fails for every fuel. Python's recursion limit is not modelled: a lookup that ends but is deeper than that limit raises `RecursionError` in the program, while the model answers it given enough fuel.
- Stored values are Python objects of any type. They are modelled as `int`, which is what the driver stores; the store never inspects them.
- The finger-table size is a `nat`. A negative size in Python gives an empty table and an empty `fix_fingers` loop, which is the same as size 0.
- Keys are strings, as annotated in the program. The driver also uses int keys (testchord.py:34, 37), which serve both as `hash` input and as the store's dict keys (objects.py:97, 101). The model covers them only through an injective encoding of ints into strings, with `hash` chosen to agree with Python's on the encoded keys; that encoding is not part of this model.
- A fully recursive key lookup, as opposed to the program's single-hop `find_key_node`, does not exist in the program. It is not modelled; `FindSuccessor` covers recursive lookup of ids.
- Maintenance.Cohere: a failed tick returns no table. In the program, the `RecursionError` of a lookup that never ends leaves earlier effects in place: the pointer updates `stabilize` already made (objects.py:71, 75-76) and the fingers `0 .. j-1` already stored (objects.py:90). The model drops them. `Maintenance.FixFingers` drops the stored fingers in the same way.
- Concurrency, transport failures and timeouts: all calls in the program are synchronous method calls.

=== FILE: keyspace.dfy ===
/**
 * The circular identifier space [0, KEYSPACE_MAX) and the `Keyspace`
 * membership test used both for routing and for key ownership.
 */
module Keyspace {

  /** Size of the identifier ring. */
  const KEYSPACE_MAX: int := 4096

  predicate InRange(x: int) {
    0 <= x < KEYSPACE_MAX
  }

  /** Clockwise distance from `a` to `b` on the ring. */
  function Dist(a: int, b: int): (d: int)
    ensures 0 <= d < KEYSPACE_MAX
  {
    (b - a) % KEYSPACE_MAX
  }

  lemma DistFormula(a: int, b: int)
    requires InRange(a) && InRange(b)
    ensures Dist(a, b) == if a <= b then b - a else b - a + KEYSPACE_MAX
  {
  }

  /**
   * The textbook circular interval (start, end]: the ids reached by walking
   * clockwise from `start` up to and including `end`; the whole ring when
   * the two bounds coincide.
   */
  predicate InArc(start: int, end: int, x: int) {
    start == end || 0 < Dist(start, x) <= Dist(start, end)
  }

  /**
   * `Keyspace(start, end).__contains__(item)`, exactly as written: the
   * wrapped branch compares against `end - KEYSPACE_MAX`, which is negative
   * for every in-range `end`, so that disjunct never holds.
   */
  predicate Contains(start: int, end: int, item: int)
    requires InRange(item)
    // the start bound is never a member unless the range is the whole ring
    ensures Contains(start, end, item) && start != end ==> item != start
    // the end bound always is, when the bounds ascend
    ensures start < end && item == end ==> Contains(start, end, item)
  {
    if start == end then
      true
    else if start < end then
      start < item <= end
    else
      item > start || item <= end - KEYSPACE_MAX
  }

  /** With equal or ascending bounds, membership is exactly the clockwise arc. */
  lemma ContainsIsArcUnlessWrapped(start: int, end: int, item: int)
    requires InRange(start) && InRange(end) && InRange(item)
    requires start <= end
    ensures Contains(start, end, item) <==> InArc(start, end, item)
  {
  }

  /** Every member lies on the clockwise arc: the test is sound, if incomplete. */
  lemma ContainsOnArc(start: int, end: int, item: int)
    requires InRange(start) && InRange(end) && InRange(item)
    requires Contains(start, end, item)
    ensures InArc(start, end, item)
  {
  }

  /**
   * With wrapped bounds the second disjunct is dead and membership collapses
   * to "after start"; members of the arc at or below `end` are missed.
   */
  lemma WrappedContainsCollapses(start: int, end: int, item: int)
    requires InRange(end) && InRange(item) && start > end
    ensures Contains(start, end, item) <==> item > start
    ensures InRange(start) && item <= end ==> InArc(start, end, item) && !Contains(start, end, item)
  {
  }

  /** One clockwise step of `k` positions from `s`. */
  function Advance(s: int, k: int): (t: int)
    ensures InRange(t)
  {
    (s + k) % KEYSPACE_MAX
  }

  /** Number of positions a clockwise walk from `s` to `e` visits. */
  function WalkLength(s: int, e: int): (n: int)
    ensures 0 <= n <= KEYSPACE_MAX
    ensures s != e && InRange(s) && InRange(e) ==> 0 < n < KEYSPACE_MAX
  {
    if s == e then KEYSPACE_MAX else Dist(s, e)
  }

  /** Brute-force reference: `x` is visited by walking clockwise from `s` to `e`. */
  ghost predicate OnWalk(s: int, e: int, x: int) {
    exists k :: 1 <= k <= WalkLength(s, e) && Advance(s, k) == x
  }

  /** The arc is exactly the set of ids a clockwise walk visits. */
  lemma ArcIsClockwiseWalk(s: int, e: int, x: int)
    requires InRange(s) && InRange(e) && InRange(x)
    ensures InArc(s, e, x) <==> OnWalk(s, e, x)
  {
    DistFormula(s, x);
    DistFormula(s, e);
    if InArc(s, e, x) {
      var k := if x == s then KEYSPACE_MAX else Dist(s, x);
      assert Advance(s, k) == x;
    }
    if OnWalk(s, e, x) {
      var k :| 1 <= k <= WalkLength(s, e) && Advance(s, k) == x;
      if s != e {
        assert Dist(s, x) == k;
      }
    }
  }

  /**
   * On the wrapped range (4000, 100] the code keeps 4050 and drops both 2000
   * and 50, although 50 lies on the clockwise arc from 4000 to 100.
   */
  lemma WrappedRangeExample()
    ensures Contains(4000, 100, 4050)
    ensures !Contains(4000, 100, 2000)
    ensures !Contains(4000, 100, 50) && InArc(4000, 100, 50)
  {
  }
}

=== FILE: maintenance.dfy ===
/**
 * Ring maintenance: `join`, `notify`, `stabilize`, `fix_fingers` and the
 * periodic tick `cohere`. Each operation takes the node table and returns
 * the updated one.
 */
module Maintenance {
  import opened Wrappers
  import opened Keyspace
  import opened Nodes
  import opened Routing

  /** `join(via)`: the successor becomes `via.find_successor(self.id)`; nothing else changes. */
  function Join(ring: seq<Node>, n: nat, via: nat, fuel: nat): (res: Result<seq<Node>, Error>)
    requires Valid(ring) && n < |ring| && via < |ring|
    ensures res.Success? <==> FindSuccessor(ring, via, ring[n].id, fuel).Some?
    ensures res.Failure? ==> res.error == HopLimitExceeded
    ensures res.Success? ==>
              && Valid(res.value) && |res.value| == |ring|
              && res.value[n].successor == FindSuccessor(ring, via, ring[n].id, fuel).value
              && res.value[n] == ring[n].(successor := res.value[n].successor)
              && forall m :: 0 <= m < |ring| && m != n ==> res.value[m] == ring[m]
  {
    match FindSuccessor(ring, via, ring[n].id, fuel)
    case None => Failure(HopLimitExceeded)
    case Some(s) => Success(ring[n := ring[n].(successor := s)])
  }

  /**
   * Node `n` takes `parent` as predecessor: it has none, or `parent` lies
   * between the old one and `n`.
   */
  predicate AcceptsPredecessor(ring: seq<Node>, n: nat, parent: nat)
    requires Valid(ring) && n < |ring| && parent < |ring|
  {
    match ring[n].predecessor
    case None => true
    case Some(p) => Contains(ring[p].id, ring[n].id, ring[parent].id)
  }

  /** `n.notify(parent)`: only `n`'s predecessor can change. */
  function Notify(ring: seq<Node>, n: nat, parent: nat): (r: seq<Node>)
    requires Valid(ring) && n < |ring| && parent < |ring|
    ensures Valid(r) && |r| == |ring|
    ensures r[n].predecessor ==
              if AcceptsPredecessor(ring, n, parent) then Some(parent) else ring[n].predecessor
    ensures r[n] == ring[n].(predecessor := r[n].predecessor)
    ensures forall m :: 0 <= m < |ring| && m != n ==> r[m] == ring[m]
  {
    if AcceptsPredecessor(ring, n, parent) then
      ring[n := ring[n].(predecessor := Some(parent))]
    else
      ring
  }

  /** A predecessor that `notify` replaces moves onto the arc from the old one up to `n`. */
  lemma NotifyNarrowsPredecessor(ring: seq<Node>, n: nat, parent: nat)
    requires Valid(ring) && n < |ring| && parent < |ring|
    requires ring[n].predecessor.Some?
    ensures var r := Notify(ring, n, parent);
            r[n].predecessor != ring[n].predecessor ==>
              r[n].predecessor == Some(parent) &&
              InArc(ring[ring[n].predecessor.value].id, ring[n].id, ring[parent].id)
  {
  }

  /** A second identical `notify` changes nothing. */
  lemma NotifyIdempotent(ring: seq<Node>, n: nat, parent: nat)
    requires Valid(ring) && n < |ring| && parent < |ring|
    ensures Notify(Notify(ring, n, parent), n, parent) == Notify(ring, n, parent)
  {
    var r := Notify(ring, n, parent);
    if AcceptsPredecessor(ring, n, parent) {
      assert r[n := r[n].(predecessor := Some(parent))] == r;
    }
  }

  /** `notify` never changes the answer of a lookup: lookups do not read predecessors. */
  lemma NotifyKeepsLookups(ring: seq<Node>, n: nat, parent: nat, m: nat, id: int, fuel: nat)
    requires Valid(ring) && n < |ring| && parent < |ring| && m < |ring| && InRange(id)
    ensures FindSuccessor(Notify(ring, n, parent), m, id, fuel) == FindSuccessor(ring, m, id, fuel)
  {
    FindSuccessorReadsRouting(Notify(ring, n, parent), ring, m, id, fuel);
  }

  /**
   * Who `stabilize` notifies: the node itself when its successor has no
   * predecessor, otherwise that predecessor `x`.
   */
  function StabilizeNotifies(ring: seq<Node>, n: nat): (t: nat)
    requires Valid(ring) && n < |ring|
    ensures t < |ring|
  {
    match ring[ring[n].successor].predecessor
    case None => n
    case Some(x) => x
  }

  /**
   * `stabilize` adopts `x`, the successor's predecessor, when it lies in
   * `Keyspace(self.id, successor.id)`.
   */
  predicate AdoptsSuccessorPredecessor(ring: seq<Node>, n: nat)
    requires Valid(ring) && n < |ring|
  {
    var s := ring[n].successor;
    match ring[s].predecessor
    case None => false
    case Some(x) => Contains(ring[n].id, ring[s].id, ring[x].id)
  }

  /** The first half of `stabilize`: adopt `x` as successor when it qualifies. */
  function AdoptSuccessor(ring: seq<Node>, n: nat): (r: seq<Node>)
    requires Valid(ring) && n < |ring|
    ensures Valid(r) && |r| == |ring|
    ensures r[n].successor ==
              if AdoptsSuccessorPredecessor(ring, n) then ring[ring[n].successor].predecessor.value
              else ring[n].successor
    ensures r[n] == ring[n].(successor := r[n].successor)
    ensures forall m :: 0 <= m < |ring| && m != n ==> r[m] == ring[m]
  {
    if AdoptsSuccessorPredecessor(ring, n) then
      ring[n := ring[n].(successor := ring[ring[n].successor].predecessor.value)]
    else
      ring
  }

  /**
   * `n.stabilize()`, as written: with no predecessor at the successor the node
   * notifies itself; otherwise it may adopt `x` and then notifies `x`.
   * Only `n`'s successor and the notified node's predecessor can change.
   */
  function Stabilize(ring: seq<Node>, n: nat): (r: seq<Node>)
    requires Valid(ring) && n < |ring|
    ensures Valid(r) && |r| == |ring|
    ensures r[n].successor ==
              if AdoptsSuccessorPredecessor(ring, n) then ring[ring[n].successor].predecessor.value
              else ring[n].successor
    ensures forall m :: 0 <= m < |ring| && m != n ==> r[m].successor == ring[m].successor
    ensures var t := StabilizeNotifies(ring, n);
            r[t].predecessor ==
              if AcceptsPredecessor(ring, t, n) then Some(n) else ring[t].predecessor
    ensures forall m :: 0 <= m < |ring| && m != StabilizeNotifies(ring, n) ==>
              r[m].predecessor == ring[m].predecessor
    ensures forall m :: 0 <= m < |ring| ==>
              r[m] == ring[m].(successor := r[m].successor, predecessor := r[m].predecessor)
  {
    var adopted := AdoptSuccessor(ring, n);
    var t := StabilizeNotifies(ring, n);
    assert AcceptsPredecessor(adopted, t, n) == AcceptsPredecessor(ring, t, n);
    Notify(adopted, t, n)
  }

  /** A successor that `stabilize` replaces gives way to a node on the arc up to it. */
  lemma StabilizeNarrowsSuccessor(ring: seq<Node>, n: nat)
    requires Valid(ring) && n < |ring|
    ensures var r := Stabilize(ring, n);
            var s := ring[n].successor;
            r[n].successor != s ==>
              && ring[s].predecessor == Some(r[n].successor)
              && InArc(ring[n].id, ring[s].id, ring[r[n].successor].id)
  {
  }

  /** 2^i. */
  function Pow2(i: nat): nat
  {
    if i == 0 then 1 else 2 * Pow2(i - 1)
  }

  /** The id finger `i` of a node at `id` is meant to point past: `(id + 2^i) % KEYSPACE_MAX`. */
  function FingerTarget(id: int, i: nat): (t: int)
    ensures InRange(t)
    ensures InRange(id) ==> Dist(id, t) == Pow2(i) % KEYSPACE_MAX
  {
    (id + Pow2(i)) % KEYSPACE_MAX
  }

  /**
   * `fs[j]` is what `fix_fingers` computes for finger `j` of node `n`: the
   * lookup of finger `j`'s target from `n` while fingers below `j` already
   * hold their new values and the others their old ones.
   */
  ghost predicate FingerFixed(ring: seq<Node>, n: nat, fs: seq<nat>, j: nat, fuel: nat)
    requires Valid(ring) && n < |ring|
  {
    && |fs| == |ring[n].fingers| && j < |fs|
    && (forall m :: 0 <= m < |fs| ==> fs[m] < |ring|)
    && FindSuccessor(WithFingers(ring, n, fs[..j] + ring[n].fingers[j..]), n,
                     FingerTarget(ring[n].id, j), fuel)
       == Some(fs[j])
  }

  /** Fingers `i ..` of `fs` are what `fix_fingers` computes for node `n`. */
  ghost predicate FingersFixedFrom(ring: seq<Node>, n: nat, fs: seq<nat>, i: nat, fuel: nat)
    requires Valid(ring) && n < |ring|
  {
    forall j :: i <= j < |ring[n].fingers| ==> FingerFixed(ring, n, fs, j, fuel)
  }

  /** `r` differs from `ring` at most in node `n`'s finger table, whose length is kept. */
  predicate OnlyFingersOf(ring: seq<Node>, r: seq<Node>, n: nat)
    requires n < |ring|
  {
    && |r| == |ring|
    && (forall m :: 0 <= m < |ring| && m != n ==> r[m] == ring[m])
    && r[n] == ring[n].(fingers := r[n].fingers)
    && |r[n].fingers| == |ring[n].fingers|
  }

  /** The step of `fix_fingers` that stores finger `i`, seen from the table before it. */
  lemma FixStep(ring: seq<Node>, next: seq<Node>, n: nat, i: nat, f: nat, fs: seq<nat>, fuel: nat)
    requires Valid(ring) && n < |ring| && i < |ring[n].fingers| && f < |ring|
    requires FindSuccessor(ring, n, FingerTarget(ring[n].id, i), fuel) == Some(f)
    requires next == WithFingers(ring, n, ring[n].fingers[i := f])
    requires |fs| == |ring[n].fingers| && fs[..i + 1] == next[n].fingers[..i + 1]
    requires forall m :: 0 <= m < |fs| ==> fs[m] < |ring|
    requires FingersFixedFrom(next, n, fs, i + 1, fuel)
    ensures FingersFixedFrom(ring, n, fs, i, fuel)
  {
    forall j | i <= j < |fs|
      ensures FingerFixed(ring, n, fs, j, fuel)
    {
      FixStepAt(ring, next, n, i, f, fs, j, fuel);
    }
  }

  /**
   * One finger `j` of `FixStep`: finger `i` is the lookup just made, a later
   * one was fixed on `next`.
   */
  lemma FixStepAt(ring: seq<Node>, next: seq<Node>, n: nat, i: nat, f: nat, fs: seq<nat>, j: nat,
                  fuel: nat)
    requires Valid(ring) && n < |ring| && i < |ring[n].fingers| && f < |ring|
    requires FindSuccessor(ring, n, FingerTarget(ring[n].id, i), fuel) == Some(f)
    requires next == WithFingers(ring, n, ring[n].fingers[i := f])
    requires |fs| == |ring[n].fingers| && fs[..i + 1] == next[n].fingers[..i + 1]
    requires forall m :: 0 <= m < |fs| ==> fs[m] < |ring|
    requires i <= j < |fs|
    requires j > i ==> FingerFixed(next, n, fs, j, fuel)
    ensures FingerFixed(ring, n, fs, j, fuel)
  {
    var oldFingers := ring[n].fingers;
    if j == i {
      FirstFixedStep(ring, next, n, i, f, fs, fuel);
    } else {
      assert next[n].fingers[j..] == oldFingers[j..];
      var mix := fs[..j] + oldFingers[j..];
      assert WithFingers(next, n, mix) == WithFingers(ring, n, mix);
    }
  }

  /**
   * Finger `i` of `FixStep`: the lookup on the table itself, where fingers
   * below `i` are already `fs`'s.
   */
  lemma FirstFixedStep(ring: seq<Node>, next: seq<Node>, n: nat, i: nat, f: nat, fs: seq<nat>,
                       fuel: nat)
    requires Valid(ring) && n < |ring| && i < |ring[n].fingers| && f < |ring|
    requires FindSuccessor(ring, n, FingerTarget(ring[n].id, i), fuel) == Some(f)
    requires next == WithFingers(ring, n, ring[n].fingers[i := f])
    requires |fs| == |ring[n].fingers| && fs[..i + 1] == next[n].fingers[..i + 1]
    requires forall m :: 0 <= m < |fs| ==> fs[m] < |ring|
    ensures FingerFixed(ring, n, fs, i, fuel)
  {
    var oldFingers := ring[n].fingers;
    assert fs[..i] == fs[..i + 1][..i];
    assert fs[..i] == oldFingers[..i];
    assert fs[..i] + oldFingers[i..] == oldFingers;
    assert WithFingers(ring, n, oldFingers) == ring;
    assert fs[i] == fs[..i + 1][i];
  }

  /** Storing finger `i` and then fingers `i + 1 ..` touches only fingers `i ..` of `n`. */
  lemma FixFrame(ring: seq<Node>, next: seq<Node>, r: seq<Node>, n: nat, i: nat, f: nat)
    requires Valid(ring) && n < |ring| && i < |ring[n].fingers| && f < |ring|
    requires next == WithFingers(ring, n, ring[n].fingers[i := f])
    requires OnlyFingersOf(next, r, n) && r[n].fingers[..i + 1] == next[n].fingers[..i + 1]
    ensures OnlyFingersOf(ring, r, n)
    ensures r[n].fingers[..i] == ring[n].fingers[..i]
    ensures r[n].fingers[i] == f
  {
    assert r[n].fingers[..i] == r[n].fingers[..i + 1][..i];
    assert ring[n].fingers[..i] == next[n].fingers[..i + 1][..i];
    assert r[n].fingers[i] == r[n].fingers[..i + 1][i];
  }

  /**
   * Recomputing fingers `i ..` in order reaches some finger `j` whose lookup
   * runs out of `fuel` hops: `t` is the table as updated so far, with
   * fingers `i .. j-1` of `n` fixed, and the others as in `ring`.
   */
  ghost predicate LookupExhaustedFrom(ring: seq<Node>, n: nat, i: nat, fuel: nat)
    requires Valid(ring) && n < |ring|
  {
    exists j: nat, t: seq<Node> :: ExhaustedAtWith(ring, n, i, fuel, j, t)
  }

  /** The witness of `LookupExhaustedFrom`: finger `j`'s lookup runs out on `t`. */
  ghost predicate ExhaustedAtWith(ring: seq<Node>, n: nat, i: nat, fuel: nat, j: nat, t: seq<Node>)
    requires Valid(ring) && n < |ring|
  {
    && i <= j < |ring[n].fingers|
    && Valid(t) && OnlyFingersOf(ring, t, n)
    && t[n].fingers[..i] == ring[n].fingers[..i]
    && t[n].fingers[j..] == ring[n].fingers[j..]
    && (forall m :: i <= m < j ==> FingerFixed(ring, n, t[n].fingers, m, fuel))
    && FindSuccessor(t, n, FingerTarget(ring[n].id, j), fuel).None?
  }

  /** A lookup that ran out after finger `i` was stored also ran out from the table before it. */
  lemma LookupExhaustedStep(ring: seq<Node>, next: seq<Node>, n: nat, i: nat, f: nat, fuel: nat)
    requires Valid(ring) && n < |ring| && i < |ring[n].fingers| && f < |ring|
    requires FindSuccessor(ring, n, FingerTarget(ring[n].id, i), fuel) == Some(f)
    requires next == WithFingers(ring, n, ring[n].fingers[i := f])
    requires LookupExhaustedFrom(next, n, i + 1, fuel)
    ensures LookupExhaustedFrom(ring, n, i, fuel)
  {
    var j: nat, t: seq<Node> :| ExhaustedAtWith(next, n, i + 1, fuel, j, t);
    var fs := t[n].fingers;
    assert next[n].fingers[j..] == ring[n].fingers[j..];
    assert fs[..i] == fs[..i + 1][..i];
    assert OnlyFingersOf(ring, t, n);
    forall m | i <= m < j
      ensures FingerFixed(ring, n, fs, m, fuel)
    {
      FixStepAt(ring, next, n, i, f, fs, m, fuel);
    }
    assert ExhaustedAtWith(ring, n, i, fuel, j, t);
  }

  /** Finger `m > i` fixed on the table before finger `i` was stored is fixed on the table after. */
  lemma FixStepBack(ring: seq<Node>, next: seq<Node>, n: nat, i: nat, f: nat, fs: seq<nat>, m: nat,
                    fuel: nat)
    requires Valid(ring) && n < |ring| && i < |ring[n].fingers| && f < |ring|
    requires next == WithFingers(ring, n, ring[n].fingers[i := f])
    requires |fs| == |ring[n].fingers| && i < m
    requires FingerFixed(ring, n, fs, m, fuel)
    ensures FingerFixed(next, n, fs, m, fuel)
  {
    assert next[n].fingers[m..] == ring[n].fingers[m..];
    var mix := fs[..m] + ring[n].fingers[m..];
    assert WithFingers(next, n, mix) == WithFingers(ring, n, mix);
  }

  /** A table as updated so far with nothing updated yet is the original table. */
  lemma UnfixedIsOriginal(ring: seq<Node>, t: seq<Node>, n: nat, i: nat)
    requires Valid(ring) && n < |ring| && i <= |ring[n].fingers|
    requires OnlyFingersOf(ring, t, n)
    requires t[n].fingers[..i] == ring[n].fingers[..i] && t[n].fingers[i..] == ring[n].fingers[i..]
    ensures t == ring
  {
    assert t[n].fingers == t[n].fingers[..i] + t[n].fingers[i..];
    assert ring[n].fingers == ring[n].fingers[..i] + ring[n].fingers[i..];
    assert t[n] == ring[n];
  }

  /**
   * Conversely, a lookup that runs out while fixing fingers `i ..`, where the
   * lookup of finger `i` answers `f`, runs out while fixing fingers `i + 1 ..`
   * after `f` is stored.
   */
  lemma LookupExhaustedBack(ring: seq<Node>, next: seq<Node>, n: nat, i: nat, f: nat, fuel: nat)
    requires Valid(ring) && n < |ring| && i < |ring[n].fingers| && f < |ring|
    requires FindSuccessor(ring, n, FingerTarget(ring[n].id, i), fuel) == Some(f)
    requires next == WithFingers(ring, n, ring[n].fingers[i := f])
    ensures LookupExhaustedFrom(ring, n, i, fuel) ==> LookupExhaustedFrom(next, n, i + 1, fuel)
  {
    if LookupExhaustedFrom(ring, n, i, fuel) {
      var j: nat, t: seq<Node> :| ExhaustedAtWith(ring, n, i, fuel, j, t);
      var fs := t[n].fingers;
      if j == i {
        UnfixedIsOriginal(ring, t, n, i);
      } else {
        assert FingerFixed(ring, n, fs, i, fuel);
        assert fs[..i] + ring[n].fingers[i..] == ring[n].fingers;
        assert WithFingers(ring, n, ring[n].fingers) == ring;
        assert fs[..i + 1] == next[n].fingers[..i + 1];
        assert next[n].fingers[j..] == ring[n].fingers[j..];
        assert OnlyFingersOf(next, t, n);
        forall m | i + 1 <= m < j
          ensures FingerFixed(next, n, fs, m, fuel)
        {
          FixStepBack(ring, next, n, i, f, fs, m, fuel);
        }
        assert ExhaustedAtWith(next, n, i + 1, fuel, j, t);
      }
    }
  }

  /** The lookup of finger `i` itself ran out of hops. */
  lemma ExhaustedAt(ring: seq<Node>, n: nat, i: nat, fuel: nat)
    requires Valid(ring) && n < |ring| && i < |ring[n].fingers|
    requires FindSuccessor(ring, n, FingerTarget(ring[n].id, i), fuel).None?
    ensures LookupExhaustedFrom(ring, n, i, fuel)
  {
    assert OnlyFingersOf(ring, ring, n);
    assert ExhaustedAtWith(ring, n, i, fuel, i, ring);
  }

  /** `fix_fingers` from finger `i` on: fingers `i ..` are recomputed in order. */
  function FixFingersFrom(ring: seq<Node>, n: nat, i: nat, fuel: nat)
    : (res: Result<seq<Node>, Error>)
    requires Valid(ring) && n < |ring| && i <= |ring[n].fingers|
    ensures res.Failure? ==> res.error == HopLimitExceeded
    ensures res.Failure? <==> LookupExhaustedFrom(ring, n, i, fuel)
    ensures res.Success? ==>
              && Valid(res.value)
              && OnlyFingersOf(ring, res.value, n)
              && res.value[n].fingers[..i] == ring[n].fingers[..i]
              && FingersFixedFrom(ring, n, res.value[n].fingers, i, fuel)
    decreases |ring[n].fingers| - i
  {
    if i == |ring[n].fingers| then
      Success(ring)
    else
      match FindSuccessor(ring, n, FingerTarget(ring[n].id, i), fuel)
      case None =>
        ExhaustedAt(ring, n, i, fuel);
        Failure(HopLimitExceeded)
      case Some(f) =>
        var next := WithFingers(ring, n, ring[n].fingers[i := f]);
        var res := FixFingersFrom(next, n, i + 1, fuel);
        if res.Success? then
          var fs := res.value[n].fingers;
          FixFrame(ring, next, res.value, n, i, f);
          FixStep(ring, next, n, i, f, fs, fuel);
          LookupExhaustedBack(ring, next, n, i, f, fuel);
          res
        else
          LookupExhaustedStep(ring, next, n, i, f, fuel);
          res
  }

  /**
   * `n.fix_fingers()`: every finger is recomputed by a lookup of its target;
   * successor, predecessor, store and every other node are left alone.
   */
  function FixFingers(ring: seq<Node>, n: nat, fuel: nat): (res: Result<seq<Node>, Error>)
    requires Valid(ring) && n < |ring|
    ensures res.Failure? ==> res.error == HopLimitExceeded
    ensures res.Failure? <==> LookupExhaustedFrom(ring, n, 0, fuel)
    ensures res.Success? ==>
              && Valid(res.value)
              && OnlyFingersOf(ring, res.value, n)
              && FingersFixedFrom(ring, n, res.value[n].fingers, 0, fuel)
  {
    FixFingersFrom(ring, n, 0, fuel)
  }

  /**
   * On a node that is its own successor, `fix_fingers` from `i` on points
   * fingers `i ..` at the node itself.
   */
  lemma {:induction false} SelfLoopFixFingersFrom(ring: seq<Node>, n: nat, i: nat, fuel: nat)
    requires Valid(ring) && n < |ring| && i <= |ring[n].fingers|
    requires ring[n].successor == n
    ensures FixFingersFrom(ring, n, i, fuel).Success?
    ensures forall j :: i <= j < |ring[n].fingers| ==>
              FixFingersFrom(ring, n, i, fuel).value[n].fingers[j] == n
    decreases |ring[n].fingers| - i
  {
    if i < |ring[n].fingers| {
      SelfLoopAnswersAlone(ring, n, FingerTarget(ring[n].id, i), fuel);
      var next := WithFingers(ring, n, ring[n].fingers[i := n]);
      SelfLoopFixFingersFrom(next, n, i + 1, fuel);
    }
  }

  /** `n.cohere()`: `stabilize` followed by `fix_fingers`. */
  function Cohere(ring: seq<Node>, n: nat, fuel: nat): (res: Result<seq<Node>, Error>)
    requires Valid(ring) && n < |ring|
    ensures res.Failure? ==> res.error == HopLimitExceeded
    ensures res.Failure? <==> LookupExhaustedFrom(Stabilize(ring, n), n, 0, fuel)
    ensures res.Success? ==>
              && Valid(res.value)
              && OnlyFingersOf(Stabilize(ring, n), res.value, n)
              && FingersFixedFrom(Stabilize(ring, n), n, res.value[n].fingers, 0, fuel)
  {
    FixFingers(Stabilize(ring, n), n, fuel)
  }
}

=== FILE: nodes.dfy ===
/**
 * Node state. A ring is an indexed table of node records; `successor`,
 * `predecessor` and finger entries are indices into that table, so the
 * object identity the program compares becomes index equality.
 */
module Nodes {
  import opened Wrappers
  import opened Keyspace

  type Key = string
  type Value = int

  datatype Node = Node(
    address: string,
    id: int,
    successor: nat,
    predecessor: Option<nat>,
    fingers: seq<nat>,
    store: map<Key, Value>)

  /** Why an operation of the model gives up. */
  datatype Error =
    | HopLimitExceeded   // a lookup used up its hop budget
    | MissingKey(key: Key)

  /** Every pointer of `node` names an entry of a table of `size` nodes. */
  predicate NodeValid(node: Node, size: nat) {
    && InRange(node.id)
    && node.successor < size
    && (node.predecessor.Some? ==> node.predecessor.value < size)
    && (forall j :: 0 <= j < |node.fingers| ==> node.fingers[j] < size)
  }

  predicate Valid(ring: seq<Node>) {
    forall i :: 0 <= i < |ring| ==> NodeValid(ring[i], |ring|)
  }

  /** The ring position of an address: `hash(address) % KEYSPACE_MAX`. */
  function NodeId(hash: string -> int, address: string): (id: int)
    ensures InRange(id)
    ensures exists q :: hash(address) == q * KEYSPACE_MAX + id
  {
    var id := hash(address) % KEYSPACE_MAX;
    assert hash(address) == (hash(address) / KEYSPACE_MAX) * KEYSPACE_MAX + id;
    id
  }

  /**
   * `Node(address, k)` placed at the next free index of the table: its own
   * successor, no predecessor, `k` fingers all naming itself, an empty store.
   */
  function AddNode(ring: seq<Node>, address: string, k: nat, hash: string -> int): (r: seq<Node>)
    requires Valid(ring)
    ensures Valid(r)
    ensures |r| == |ring| + 1 && r[..|ring|] == ring
    ensures r[|ring|].id == NodeId(hash, address) && r[|ring|].address == address
    ensures r[|ring|].successor == |ring| && r[|ring|].predecessor == None
    ensures |r[|ring|].fingers| == k
    ensures forall j :: 0 <= j < k ==> r[|ring|].fingers[j] == |ring|
    ensures r[|ring|].store == map[]
  {
    var self := |ring|;
    ring + [Node(address, NodeId(hash, address), self, None, seq(k, _ => self), map[])]
  }

  /** The table with node `n`'s finger table replaced by `fs`. */
  function WithFingers(ring: seq<Node>, n: nat, fs: seq<nat>): (r: seq<Node>)
    requires Valid(ring) && n < |ring|
    requires forall j :: 0 <= j < |fs| ==> fs[j] < |ring|
    ensures Valid(r) && |r| == |ring|
    ensures r[n].fingers == fs
  {
    ring[n := ring[n].(fingers := fs)]
  }

  /**
   * Two tables route alike: same size, and every node has the same id,
   * successor and finger table. Lookups read nothing else.
   */
  predicate SameRouting(r1: seq<Node>, r2: seq<Node>) {
    && |r1| == |r2|
    && forall i :: 0 <= i < |r1| ==>
         && r1[i].id == r2[i].id
         && r1[i].successor == r2[i].successor
         && r1[i].fingers == r2[i].fingers
  }
}

=== FILE: routing.dfy ===
/**
 * Lookup: `closest_preceding_node` scans the finger table from the largest
 * stride down; `find_successor` answers locally or delegates. The program's
 * recursion has no bound, so the model counts delegations against `fuel`.
 */
module Routing {
  import opened Wrappers
  import opened Keyspace
  import opened Nodes

  /** Finger `j` of node `n` lies in `Keyspace(n.id, id % KEYSPACE_MAX)`. */
  predicate Qualifies(ring: seq<Node>, n: nat, id: int, j: nat)
    requires Valid(ring) && n < |ring| && j < |ring[n].fingers|
  {
    Contains(ring[n].id, id % KEYSPACE_MAX, ring[ring[n].fingers[j]].id)
  }

  /** `j` is the highest-index finger of `n` that qualifies for `id`. */
  predicate HighestQualifying(ring: seq<Node>, n: nat, id: int, j: nat)
    requires Valid(ring) && n < |ring|
  {
    && j < |ring[n].fingers|
    && Qualifies(ring, n, id, j)
    && forall j' :: j < j' < |ring[n].fingers| ==> !Qualifies(ring, n, id, j')
  }

  /** The backwards scan over fingers `0 .. i-1`. */
  function ScanFingers(ring: seq<Node>, n: nat, id: int, i: nat): (r: Option<nat>)
    requires Valid(ring) && n < |ring| && i <= |ring[n].fingers|
    ensures r.Some? ==> r.value < i
    decreases i
  {
    if i == 0 then
      None
    else if Qualifies(ring, n, id, i - 1) then
      Some(i - 1)
    else
      ScanFingers(ring, n, id, i - 1)
  }

  /**
   * The scan finds the highest qualifying finger below `i`, and finds none
   * exactly when no finger below `i` qualifies.
   */
  lemma {:induction false} ScanFindsHighest(ring: seq<Node>, n: nat, id: int, i: nat)
    requires Valid(ring) && n < |ring| && i <= |ring[n].fingers|
    ensures var r := ScanFingers(ring, n, id, i);
            && (r.Some? ==> Qualifies(ring, n, id, r.value))
            && (r.Some? ==> forall j :: r.value < j < i ==> !Qualifies(ring, n, id, j))
            && (r.None? ==> forall j :: 0 <= j < i ==> !Qualifies(ring, n, id, j))
    decreases i
  {
    if i > 0 && !Qualifies(ring, n, id, i - 1) {
      ScanFindsHighest(ring, n, id, i - 1);
    }
  }

  /**
   * `closest_preceding_node(id)`: the highest finger whose id lies in
   * `Keyspace(self.id, id % KEYSPACE_MAX)`, or the node itself when none does.
   * Any integer `id` is accepted: it is reduced before the range test.
   */
  function ClosestPrecedingNode(ring: seq<Node>, n: nat, id: int): (r: nat)
    requires Valid(ring) && n < |ring|
    ensures r < |ring|
  {
    match ScanFingers(ring, n, id, |ring[n].fingers|)
    case Some(j) => ring[n].fingers[j]
    case None => n
  }

  /**
   * The node `closest_preceding_node` picks is the highest qualifying finger
   * when some finger qualifies, and the node itself when none does.
   */
  lemma ClosestPrecedingNodeIsHighestQualifying(ring: seq<Node>, n: nat, id: int)
    requires Valid(ring) && n < |ring|
    ensures (exists j :: 0 <= j < |ring[n].fingers| && Qualifies(ring, n, id, j)) ==>
              exists j: nat ::
                && HighestQualifying(ring, n, id, j)
                && ClosestPrecedingNode(ring, n, id) == ring[n].fingers[j]
    ensures (forall j :: 0 <= j < |ring[n].fingers| ==> !Qualifies(ring, n, id, j)) ==>
              ClosestPrecedingNode(ring, n, id) == n
  {
    ScanFindsHighest(ring, n, id, |ring[n].fingers|);
    match ScanFingers(ring, n, id, |ring[n].fingers|)
    case Some(j) =>
      assert HighestQualifying(ring, n, id, j);
    case None =>
  }

  /** What one node does with a lookup: answer it, or hand it to another node. */
  datatype Hop = Reply(node: nat) | Delegate(node: nat)

  /** One step of `find_successor(id)` at node `n`. */
  function NextHop(ring: seq<Node>, n: nat, id: int): (h: Hop)
    requires Valid(ring) && n < |ring| && InRange(id)
    ensures h.node < |ring|
    // the successor replies when it covers `id`
    ensures Contains(ring[n].id, ring[ring[n].successor].id, id) ==> h == Reply(ring[n].successor)
    // otherwise the node replies itself exactly when no finger is closer
    ensures !Contains(ring[n].id, ring[ring[n].successor].id, id) ==>
              (h == Reply(n) <==> ClosestPrecedingNode(ring, n, id) == n)
    // a delegation goes to the closest preceding node, never to the node itself
    ensures h.Delegate? ==> h.node != n && h.node == ClosestPrecedingNode(ring, n, id)
    // and the step delegates whenever neither of them replies
    ensures && !Contains(ring[n].id, ring[ring[n].successor].id, id)
            && ClosestPrecedingNode(ring, n, id) != n ==>
              h == Delegate(ClosestPrecedingNode(ring, n, id))
  {
    var succ := ring[n].successor;
    if Contains(ring[n].id, ring[succ].id, id) then
      Reply(succ)
    else
      var next := ClosestPrecedingNode(ring, n, id);
      if next == n then Reply(n) else Delegate(next)
  }

  /**
   * `find_successor(id)` from node `n`, allowing `fuel` delegations;
   * `None` when the budget runs out before some node replies.
   */
  function FindSuccessor(ring: seq<Node>, n: nat, id: int, fuel: nat): (r: Option<nat>)
    requires Valid(ring) && n < |ring| && InRange(id)
    ensures r.Some? ==> r.value < |ring|
    decreases fuel
  {
    match NextHop(ring, n, id)
    case Reply(m) => Some(m)
    case Delegate(next) =>
      if fuel == 0 then None else FindSuccessor(ring, next, id, fuel - 1)
  }

  /**
   * A delegation chain for `id`: `path[0]` hands the lookup to `path[1]` and
   * so on, and the last node replies `r`.
   */
  ghost predicate IsRoute(ring: seq<Node>, id: int, path: seq<nat>, r: nat)
    requires Valid(ring) && InRange(id)
  {
    && |path| > 0
    && (forall i :: 0 <= i < |path| ==> path[i] < |ring|)
    && (forall i :: 0 <= i < |path| - 1 ==> NextHop(ring, path[i], id) == Delegate(path[i + 1]))
    && NextHop(ring, path[|path| - 1], id) == Reply(r)
  }

  /** The nodes a lookup from `n` visits, in order. */
  ghost function Visited(ring: seq<Node>, n: nat, id: int, fuel: nat): (path: seq<nat>)
    requires Valid(ring) && n < |ring| && InRange(id)
    ensures 0 < |path| <= fuel + 1 && path[0] == n
    decreases fuel
  {
    match NextHop(ring, n, id)
    case Reply(_) => [n]
    case Delegate(next) => if fuel == 0 then [n] else [n] + Visited(ring, next, id, fuel - 1)
  }

  /** An answer of the lookup comes with the delegation chain that produced it. */
  lemma {:induction false} RouteOfAnswer(ring: seq<Node>, n: nat, id: int, fuel: nat, r: nat)
    requires Valid(ring) && n < |ring| && InRange(id)
    requires FindSuccessor(ring, n, id, fuel) == Some(r)
    ensures IsRoute(ring, id, Visited(ring, n, id, fuel), r)
    decreases fuel
  {
    match NextHop(ring, n, id)
    case Reply(m) =>
    case Delegate(next) =>
      RouteOfAnswer(ring, next, id, fuel - 1, r);
      var tail := Visited(ring, next, id, fuel - 1);
      var path := Visited(ring, n, id, fuel);
      assert path == [n] + tail;
      forall i | 0 <= i < |path| - 1
        ensures NextHop(ring, path[i], id) == Delegate(path[i + 1])
      {
        if i > 0 {
          assert path[i] == tail[i - 1] && path[i + 1] == tail[i];
        }
      }
      assert path[|path| - 1] == tail[|tail| - 1];
  }

  /** Following a delegation chain that fits the budget yields its reply. */
  lemma {:induction false} AnswerOfRoute(
    ring: seq<Node>, path: seq<nat>, id: int, fuel: nat, r: nat)
    requires Valid(ring) && InRange(id)
    requires IsRoute(ring, id, path, r) && |path| <= fuel + 1
    ensures FindSuccessor(ring, path[0], id, fuel) == Some(r)
    decreases |path|
  {
    var n := path[0];
    if |path| == 1 {
      assert NextHop(ring, n, id) == Reply(r);
    } else {
      var tail := path[1..];
      assert IsRoute(ring, id, tail, r) by {
        forall i | 0 <= i < |tail| - 1
          ensures NextHop(ring, tail[i], id) == Delegate(tail[i + 1])
        {
          assert tail[i] == path[i + 1] && tail[i + 1] == path[i + 2];
        }
        assert tail[|tail| - 1] == path[|path| - 1];
      }
      AnswerOfRoute(ring, tail, id, fuel - 1, r);
      assert NextHop(ring, n, id) == Delegate(tail[0]);
    }
  }

  /**
   * The fuel-bounded lookup answers `r` exactly when a delegation chain from
   * `n` of at most `fuel` hand-offs ends in the reply `r`.
   */
  lemma FindSuccessorFollowsRoute(ring: seq<Node>, n: nat, id: int, fuel: nat, r: nat)
    requires Valid(ring) && n < |ring| && InRange(id)
    ensures FindSuccessor(ring, n, id, fuel) == Some(r) <==>
              exists path :: IsRoute(ring, id, path, r) && path[0] == n && |path| <= fuel + 1
  {
    if FindSuccessor(ring, n, id, fuel) == Some(r) {
      RouteOfAnswer(ring, n, id, fuel, r);
      assert IsRoute(ring, id, Visited(ring, n, id, fuel), r);
    }
    if exists path :: IsRoute(ring, id, path, r) && path[0] == n && |path| <= fuel + 1 {
      var path :| IsRoute(ring, id, path, r) && path[0] == n && |path| <= fuel + 1;
      AnswerOfRoute(ring, path, id, fuel, r);
    }
  }

  /** More fuel never changes an answer already reached. */
  lemma {:induction false} FindSuccessorFuelMonotone(
    ring: seq<Node>, n: nat, id: int, fuel: nat, more: nat)
    requires Valid(ring) && n < |ring| && InRange(id)
    requires fuel <= more && FindSuccessor(ring, n, id, fuel).Some?
    ensures FindSuccessor(ring, n, id, more) == FindSuccessor(ring, n, id, fuel)
    decreases fuel
  {
    match NextHop(ring, n, id)
    case Reply(m) =>
    case Delegate(next) =>
      FindSuccessorFuelMonotone(ring, next, id, fuel - 1, more - 1);
  }

  /** The finger scan reads only ids and finger tables. */
  lemma {:induction false} ScanFingersReadsRouting(
    r1: seq<Node>, r2: seq<Node>, n: nat, id: int, i: nat)
    requires Valid(r1) && Valid(r2) && SameRouting(r1, r2)
    requires n < |r1| && i <= |r1[n].fingers|
    ensures ScanFingers(r1, n, id, i) == ScanFingers(r2, n, id, i)
    decreases i
  {
    if i > 0 {
      assert Qualifies(r1, n, id, i - 1) == Qualifies(r2, n, id, i - 1);
      ScanFingersReadsRouting(r1, r2, n, id, i - 1);
    }
  }

  /** `closest_preceding_node` gives the same node on tables that route alike. */
  lemma ClosestPrecedingNodeReadsRouting(r1: seq<Node>, r2: seq<Node>, n: nat, id: int)
    requires Valid(r1) && Valid(r2) && SameRouting(r1, r2) && n < |r1|
    ensures ClosestPrecedingNode(r1, n, id) == ClosestPrecedingNode(r2, n, id)
  {
    ScanFingersReadsRouting(r1, r2, n, id, |r1[n].fingers|);
  }

  /** One lookup step reads only ids, successors and finger tables. */
  lemma NextHopReadsRouting(r1: seq<Node>, r2: seq<Node>, n: nat, id: int)
    requires Valid(r1) && Valid(r2) && SameRouting(r1, r2)
    requires n < |r1| && InRange(id)
    ensures NextHop(r1, n, id) == NextHop(r2, n, id)
  {
    var s := r1[n].successor;
    assert s == r2[n].successor && r1[s].id == r2[s].id && r1[n].id == r2[n].id;
    ClosestPrecedingNodeReadsRouting(r1, r2, n, id);
  }

  /**
   * `find_successor` gives the same answer on tables that route alike:
   * predecessors and stores play no part in a lookup.
   */
  lemma {:induction false} FindSuccessorReadsRouting(
    r1: seq<Node>, r2: seq<Node>, n: nat, id: int, fuel: nat)
    requires Valid(r1) && Valid(r2) && SameRouting(r1, r2)
    requires n < |r1| && InRange(id)
    ensures FindSuccessor(r1, n, id, fuel) == FindSuccessor(r2, n, id, fuel)
    decreases fuel
  {
    NextHopReadsRouting(r1, r2, n, id);
    match NextHop(r1, n, id)
    case Reply(m) =>
    case Delegate(next) =>
      if fuel > 0 {
        FindSuccessorReadsRouting(r1, r2, next, id, fuel - 1);
      }
  }

  /** A node that is still its own successor answers every lookup itself. */
  lemma SelfLoopAnswersAlone(ring: seq<Node>, n: nat, id: int, fuel: nat)
    requires Valid(ring) && n < |ring| && InRange(id)
    requires ring[n].successor == n
    ensures FindSuccessor(ring, n, id, fuel) == Some(n)
  {
  }
}

=== FILE: scenarios.dfy ===
/** Small rings worked through the model end to end. */
module Scenarios {
  import opened Wrappers
  import opened Keyspace
  import opened Nodes
  import opened Routing
  import opened Maintenance

  /**
   * Two nodes `a` and `b`, whatever their ids: `a` stabilizes alone, `b`
   * joins through `a`, then `b` and `a` stabilize in that order. Afterwards
   * each is the other's successor and predecessor.
   */
  lemma TwoNodeBootstrap(hash: string -> int, a: string, b: string, k: nat, fuel: nat)
    ensures var r0 := AddNode(Stabilize(AddNode([], a, k, hash), 0), b, k, hash);
            var j := Join(r0, 1, 0, fuel);
            j.Success? &&
            var r := Stabilize(Stabilize(j.value, 1), 0);
            && r[0].successor == 1 && r[0].predecessor == Some(1)
            && r[1].successor == 0 && r[1].predecessor == Some(0)
  {
    var alone := AddNode([], a, k, hash);
    assert StabilizeNotifies(alone, 0) == 0;
    var r0 := AddNode(Stabilize(alone, 0), b, k, hash);
    assert r0[0].successor == 0 && r0[0].predecessor == Some(0);
    SelfLoopAnswersAlone(r0, 0, r0[1].id, fuel);
    var r1 := Join(r0, 1, 0, fuel).value;
    assert r1[1].successor == 0 && r1[0].successor == 0;
    assert r1[0].predecessor == Some(0) && r1[1].predecessor == None;
    assert StabilizeNotifies(r1, 1) == 0;
    var r2 := Stabilize(r1, 1);
    assert r2[0].predecessor == Some(1);
    assert r2[1].successor == 0 && r2[0].successor == 0 && r2[1].predecessor == None;
    assert AdoptsSuccessorPredecessor(r2, 0);
    assert StabilizeNotifies(r2, 0) == 1;
  }

  /**
   * A node just added to the table and ticked once, as the first `cohere` of
   * the root node does: it becomes its own predecessor, stays its own
   * successor, and every finger names itself.
   */
  lemma LoneNodeCohere(ring: seq<Node>, address: string, k: nat, hash: string -> int, fuel: nat)
    requires Valid(ring)
    ensures var r0 := AddNode(ring, address, k, hash);
            var n := |ring|;
            var c := Cohere(r0, n, fuel);
            && c.Success?
            && c.value[n].successor == n
            && c.value[n].predecessor == Some(n)
            && (forall j :: 0 <= j < k ==> c.value[n].fingers[j] == n)
            && c.value[..n] == ring
  {
    var r0 := AddNode(ring, address, k, hash);
    var n := |ring|;
    assert StabilizeNotifies(r0, n) == n;
    var st := Stabilize(r0, n);
    assert st[n].successor == n && st[n].predecessor == Some(n);
    SelfLoopFixFingersFrom(st, n, 0, fuel);
    var c := Cohere(r0, n, fuel);
    assert c.value[..n] == ring by {
      forall m | 0 <= m < n
        ensures c.value[m] == ring[m]
      {
        assert c.value[m] == st[m] == r0[m];
      }
    }
  }
}

=== FILE: storage.dfy ===
/**
 * Keyed storage: a key is placed at the node that `find_key_node` picks,
 * a single `closest_preceding_node` hop from the calling node.
 */
module Storage {
  import opened Wrappers
  import opened Keyspace
  import opened Nodes
  import opened Routing

  /**
   * `find_key_node(key)`: `closest_preceding_node(hash(key))` at node `n`
   * only; the raw hash is reduced inside the scan.
   */
  function FindKeyNode(ring: seq<Node>, n: nat, key: Key, hash: string -> int): (h: nat)
    requires Valid(ring) && n < |ring|
    ensures h < |ring|
    ensures h == n || exists j :: 0 <= j < |ring[n].fingers| && h == ring[n].fingers[j]
  {
    ClosestPrecedingNode(ring, n, hash(key))
  }

  /** `get(key)`: the value at the resolved node, or `MissingKey` when it has none. */
  function Get(ring: seq<Node>, n: nat, key: Key, hash: string -> int): (res: Result<Value, Error>)
    requires Valid(ring) && n < |ring|
    ensures var h := FindKeyNode(ring, n, key, hash);
            && (res.Success? <==> key in ring[h].store)
            && (res.Success? ==> res.value == ring[h].store[key])
            && (res.Failure? ==> res.error == MissingKey(key))
  {
    var h := FindKeyNode(ring, n, key, hash);
    if key in ring[h].store then Success(ring[h].store[key]) else Failure(MissingKey(key))
  }

  /** `put(key, value)`: only the resolved node's store changes, and only at `key`. */
  function Put(ring: seq<Node>, n: nat, key: Key, value: Value, hash: string -> int): (r: seq<Node>)
    requires Valid(ring) && n < |ring|
    ensures Valid(r) && SameRouting(ring, r)
    ensures var h := FindKeyNode(ring, n, key, hash);
            && r[h] == ring[h].(store := ring[h].store[key := value])
            && forall m :: 0 <= m < |ring| && m != h ==> r[m] == ring[m]
  {
    var h := FindKeyNode(ring, n, key, hash);
    ring[h := ring[h].(store := ring[h].store[key := value])]
  }

  /** `put` does not move any key: every node resolves every key as before. */
  lemma PutKeepsKeyNodes(
    ring: seq<Node>, n: nat, key: Key, value: Value, hash: string -> int, m: nat, other: Key)
    requires Valid(ring) && n < |ring| && m < |ring|
    ensures FindKeyNode(Put(ring, n, key, value, hash), m, other, hash)
            == FindKeyNode(ring, m, other, hash)
  {
    ClosestPrecedingNodeReadsRouting(Put(ring, n, key, value, hash), ring, m, hash(other));
  }

  /** `get(key)` right after `put(key, value)` from the same node returns `value`. */
  lemma PutThenGet(ring: seq<Node>, n: nat, key: Key, value: Value, hash: string -> int)
    requires Valid(ring) && n < |ring|
    ensures Get(Put(ring, n, key, value, hash), n, key, hash) == Success(value)
  {
    PutKeepsKeyNodes(ring, n, key, value, hash, n, key);
  }

  /** `put(key, value)` leaves `get` of every other key, from every node, as it was. */
  lemma PutLeavesOtherKeys(
    ring: seq<Node>, n: nat, key: Key, value: Value, hash: string -> int, m: nat, other: Key)
    requires Valid(ring) && n < |ring| && m < |ring| && other != key
    ensures Get(Put(ring, n, key, value, hash), m, other, hash) == Get(ring, m, other, hash)
  {
    PutKeepsKeyNodes(ring, n, key, value, hash, m, other);
  }

  /** `put` changes no lookup. */
  lemma PutKeepsLookups(
    ring: seq<Node>, n: nat, key: Key, value: Value, hash: string -> int, m: nat, id: int,
    fuel: nat)
    requires Valid(ring) && n < |ring| && m < |ring| && InRange(id)
    ensures FindSuccessor(Put(ring, n, key, value, hash), m, id, fuel)
            == FindSuccessor(ring, m, id, fuel)
  {
    FindSuccessorReadsRouting(Put(ring, n, key, value, hash), ring, m, id, fuel);
  }
}

=== FILE: wrappers.dfy ===
/** Option and Result datatypes used by the ring model. */
module Wrappers {

  /** An optional value; stands for Python's `None`-or-object. */
  datatype Option<+T> = None | Some(value: T)

  /** Either a successful value or an error. */
  datatype Result<+T, +E> = Success(value: T) | Failure(error: E)
}
